=== FILE: README.md ===
# Media library path layout and storage operations

A Dafny model of the part of the Laravel media library that decides where a
media record's files live on a storage disk and that moves bytes to and from
those places:

- `Filesystem::getMediaDirectoryName` builds the media directory from four
  `/`-joined parts: the owning model's class name (the part after the last
  `\`, lower-cased), the lower-cased collection name, a bucket of up to three
  3-character chunks of the file name's stem, and the record's id. No empty
  part is dropped, so an empty collection or stem leaves a doubled `/`.
- `Filesystem::renderFilename` names an ingested file `md5(path) + "." +
  extension`.
- The `Filesystem` operations are `add`, `copyToMediaLibrary`,
  `copyFromMediaLibrary`, `removeFiles`, `renameFile` and
  `getMediaDirectory`. They act on an abstract disk: a map from path to bytes,
  plus the set of directories made explicitly. Local files form a second map
  from path to bytes.
- `BaseUrlGenerator` holds the media and the conversion a URL is requested for.
  Its `getPathRelativeToRoot` builds either the original's path or the path
  of a conversion under `conversions/`. The original's path is where `add`
  stored the file under the media's own name only when that name is truthy:
  for a `file_name` of "0" (or "") `add` uses the hashed name while the path
  still ends in the file name.

Modules:

- `Text` (text.dfy): the PHP string functions the layout is built from,
  each with lemmas that pin its result down. These are `strtolower` (ASCII),
  `explode` and `array_pop`, `basename`, `pathinfo`, `str_split`, `implode`,
  `array_filter` on strings, string truthiness and the decimal rendering of an
  integer.
- `Storage` (storage.dfy): the disk and the backend calls the library makes,
  namely `put`, `deleteDirectory`, `move` and `makeDirectory`. A
  `readStream` is a lookup in the files map.
- `MediaFilesystem` (filesystem.dfy): the pure layout functions, and the
  class `Filesystem`. Its fields are the disks by name, the local files and
  the log of derived-file requests; its methods are specified against the
  `Storage` functions.
- `LayoutProperties` (layout_properties.dfy): what the layout and the
  operations promise together.
- `UrlGenerator` (url_generator.dfy): the class `BaseUrlGenerator` and the
  agreement between its paths and the keys the filesystem writes, reads,
  moves and deletes.

## Model

| member | source | states |
|---|---|---|
| Text.Lower | src/Filesystem.php:130-131 | strtolower keeps the length and maps each character to its ASCII lower-case form. |
| Text.LowerKeepsNonLetter | src/Filesystem.php:130-131 | Lower-casing neither creates nor removes a non-letter such as '/'. |
| Text.AfterLast | src/Filesystem.php:127-130 | array_pop(explode(c, s)) is a suffix of s that holds no c; AfterLastIsLastSplitPiece ties it to the last piece of Split, and AfterLastIsLastPiece pins it down exactly. |
| Text.AfterLastCut | src/Filesystem.php:127-130 | The result is a last piece: a c-free suffix that is all of s or follows a c. |
| Text.AfterLastIsLastPiece | src/Filesystem.php:127-130 | A string is array_pop(explode(c, s)) if and only if it is a c-free suffix of s that is all of s or follows a c. |
| Text.AfterLastSplice | src/Filesystem.php:127-130 | After a + c + b with no c in b, the last piece is exactly b. |
| Text.Basename | src/Filesystem.php:57 | basename is a suffix of the path that holds no '/'; BasenameIsLastPiece pins it down exactly. |
| Text.BasenameIsLastPiece | src/Filesystem.php:57 | A string is the basename if and only if it is a '/'-free suffix of the path that is the whole path or follows a '/'. |
| Text.BasenameOfName | src/Filesystem.php:57 | A name without '/' is its own basename. |
| Text.Stem | src/Filesystem.php:126 | pathinfo's file name part holds no '/'. |
| Text.Extension | src/Filesystem.php:141 | pathinfo's extension holds neither '/' nor '.'. |
| Text.StemExtensionRebuild | src/Filesystem.php:126 | The stem, a '.' and the extension rebuild the basename when it has a '.'; otherwise the stem is the basename and the extension is "". |
| Text.StemExtensionOfName | src/Filesystem.php:126 | stem + "." + ext, with no '.' in ext, has exactly that stem and that extension. |
| Text.Truthy | src/Filesystem.php:53-59 | PHP string truthiness: false exactly for "" and "0"; used by array_filter and by the ternary on the target name (line 57). |
| Text.Join | src/Filesystem.php:136 | implode; SplitJoin and JoinSplit prove it inverse to explode, and WithoutJoin that removing its separators leaves the parts' concatenation. |
| Text.Split | src/Filesystem.php:127 | explode always yields at least one piece. |
| Text.AfterLastIsLastSplitPiece | src/Filesystem.php:127-130 | The last piece of explode(c, s), the one array_pop returns, is AfterLast(s, c). |
| Text.SplitPiecesAvoidSep | src/Filesystem.php:127 | No piece of explode holds the separator. |
| Text.SplitJoin | src/Filesystem.php:136 | explode undoes implode when no part holds the separator. |
| Text.JoinSplit | src/Filesystem.php:136 | implode undoes explode for every string. |
| Text.SplitAppend | src/Filesystem.php:136 | The pieces of a + sep + b are the pieces of a followed by the pieces of b. |
| Text.Join3 | src/UrlGenerator/BaseUrlGenerator.php:71-75 | implode of three parts puts the separator between consecutive parts. |
| Text.Join4 | src/Filesystem.php:129-136 | implode of four parts puts the separator between consecutive parts, empty ones included. |
| Text.KeepTruthy | src/Filesystem.php:53-59 | array_filter keeps at most the given parts, and only truthy ones (neither "" nor "0"); with KeepTruthySingle and KeepTruthyAppend this fixes the result. |
| Text.KeepTruthySingle | src/Filesystem.php:53-59 | A single part is kept exactly when it is truthy. |
| Text.KeepTruthyAppend | src/Filesystem.php:53-59 | Filtering a concatenation filters each side and keeps their order, so every truthy part is kept in place. |
| Text.KeepTruthyMembers | src/Filesystem.php:53-59 | A string is in the filtered list if and only if it is one of the parts and truthy. |
| Text.KeepTruthyThree | src/Filesystem.php:53-59 | Filtering [dir, sub, name] with a truthy dir gives dir followed by the filtered sub and the filtered name. |
| Text.JoinKeepTruthy3 | src/Filesystem.php:53-61 | With a truthy first part, implode(array_filter([a, b, c])) is given case by case on which of b and c are truthy. |
| Text.WithoutJoin | src/Filesystem.php:132 | Deleting the separators from an implode leaves the concatenation of the parts. |
| Text.Chunks3 | src/Filesystem.php:132 | str_split yields at least one chunk, one empty chunk for "". |
| Text.ChunksShape | src/Filesystem.php:132 | str_split(s, 3) has ceil(|s|/3) chunks, all of length 3 except the last, which has length 1 to 3. |
| Text.ChunksAvoid | src/Filesystem.php:132 | A character absent from s is absent from every chunk. |
| Text.ChunksPrefix | src/Filesystem.php:132 | The first k chunks hold exactly the first min(3k, |s|) characters. |
| Text.Decimal | src/Filesystem.php:133 | The id's decimal rendering is non-empty and all digits; DecimalRoundTrip and DecimalNoLeadingZero make it PHP's canonical decimal string. |
| Text.DecimalRoundTrip | src/Filesystem.php:133 | The rendering denotes the id again, so two ids never share a segment. |
| Text.DecimalNoLeadingZero | src/Filesystem.php:133 | The rendering starts with '0' exactly for the id 0, so no id is written with a leading zero. |
| Text.DecimalHasNoSlash | src/Filesystem.php:133 | The id segment holds no '/'. |
| Storage.Put | src/Filesystem.php:63 | put writes exactly one key with the given bytes; every other file and directory is unchanged. |
| Storage.DeleteDirectory | src/Filesystem.php:90 | deleteDirectory removes exactly the files under dir + "/" and the directories at or under dir; the rest keeps its bytes. |
| Storage.Move | src/Filesystem.php:105 | move gives the target the source's bytes and vacates the source; no other key changes; a missing source changes nothing. |
| Storage.MakeDirectory | src/Filesystem.php:119 | makeDirectory adds the directory and changes no file. |
| Storage.DeleteDirectoryIdempotent | src/Filesystem.php:88-91 | Deleting the media directory twice is the same as once. |
| Storage.MakeDirectoryIdempotent | src/Filesystem.php:116-122 | Making the media directory again changes nothing further. |
| Storage.UnderDirectory | src/Filesystem.php:74 | dir + "/" + name lies under dir. |
| Storage.UnderSubDirectory | src/UrlGenerator/BaseUrlGenerator.php:71-75 | dir + "/" + sub + "/" + name lies under dir. |
| MediaFilesystem.ModelSegment | src/Filesystem.php:127-130 | The last '\\'-separated part of the model type, lower-cased; ModelSegmentOfClassName proves it free of '\\' and of upper-case letters and equal to the lower-cased class name. |
| MediaFilesystem.CollectionSegment | src/Filesystem.php:131 | The collection name lower-cased; Lower gives its length and characters. |
| MediaFilesystem.Bucket | src/Filesystem.php:132 | The first three stem chunks joined by '/'; BucketByLength, BucketExamples and BucketWithoutSeparators give it exactly. |
| MediaFilesystem.MediaDirectoryName | src/Filesystem.php:124-137 | The four parts joined by '/'; DirectoryKeepsEmptyParts, MediaDirectorySegments and DirectoryEndsWithId give its text and segments. |
| MediaFilesystem.TargetName | src/Filesystem.php:57 | The name segment copyToMediaLibrary writes under never holds a '/'. |
| MediaFilesystem.Destination | src/Filesystem.php:53-61 | The key copyToMediaLibrary writes; DestinationCases gives it for every truthiness case. |
| MediaFilesystem.StoredPath | src/Filesystem.php:74 | dir + "/" + name, the key copyFromMediaLibrary reads (line 74) and renameFile moves from and to (lines 102-103); StoredPathInjective and RemoveFilesRemovesMediaFiles are about it. |
| MediaFilesystem.Filesystem.DiskNamed | src/Filesystem.php:63 | The disk the media's disk name selects; a name with no stored disk is an empty disk. |
| MediaFilesystem.BucketParts | src/Filesystem.php:132 | The first three chunks of the stem: one, two or three by the stem's length; together they are the stem's first min(9, |stem|) characters; all but the last have length 3, and the last has length 1 to 3 unless the stem is "". |
| MediaFilesystem.RenderFilename | src/Filesystem.php:139-142 | The rendered name's stem is md5 of the path, its extension is the path's extension, and its length is 33 plus that extension's length; it holds no '/' and is truthy. |
| MediaFilesystem.Filesystem.constructor | src/Filesystem.php:23-27 | Starts with the given disks and local files and an empty log of derived-file requests. |
| MediaFilesystem.Filesystem.Add | src/Filesystem.php:36-41 | Performs copyToMediaLibrary with sub-directory "" and the given target name. The media is appended to the derived-file log once exactly when the copy succeeded. |
| MediaFilesystem.Filesystem.CopyToMediaLibrary | src/Filesystem.php:51-64 | A source that fopen can open in 'r+' mode (a key of the local files) is put at Destination on the media's disk, and no other disk changes. Any other source fails and changes nothing. |
| MediaFilesystem.Filesystem.CopyFromMediaLibrary | src/Filesystem.php:72-81 | The target becomes its old bytes (none when absent) followed by the bytes stored at dir + "/" + file_name. When that key is missing, the target is only created and the call fails. |
| MediaFilesystem.Filesystem.RemoveFiles | src/Filesystem.php:88-91 | The media's disk loses the media directory and everything under it; other disks are unchanged. |
| MediaFilesystem.Filesystem.RenameFile | src/Filesystem.php:100-108 | Moves dir/oldName to dir/file_name on the media's disk and returns true regardless. |
| MediaFilesystem.Filesystem.GetMediaDirectory | src/Filesystem.php:116-122 | Returns the media directory name and makes that directory on the media's disk. |
| LayoutProperties.ModelSegmentOfClassName | src/Filesystem.php:127-130 | The model segment holds no '\\' and no upper-case letter; for namespace + '\\' + class it is the lower-cased class; with no namespace it is the lower-cased model type. |
| LayoutProperties.DirectoryKeepsEmptyParts | src/Filesystem.php:124-137 | The directory is model + "/" + collection + "/" + bucket + "/" + id. An empty collection or an empty stem leaves a doubled '/'. |
| LayoutProperties.MediaDirectorySegments | src/Filesystem.php:124-137 | For a model type and collection name without '/', the directory's '/'-separated segments are, in order: model, collection, one to three bucket chunks, id. |
| LayoutProperties.DirectoryEndsWithId | src/Filesystem.php:133-136 | The id is the directory's last segment. |
| LayoutProperties.BucketByLength | src/Filesystem.php:132 | The bucket is the whole stem up to 3 characters; two chunks up to 6; otherwise three chunks, and characters after the 9th are dropped. |
| LayoutProperties.BucketExamples | src/Filesystem.php:132 | "abcdefghi" gives "abc/def/ghi", as does "abcdefghijkl"; "abcd" gives "abc/d"; "ab" gives "ab". |
| LayoutProperties.BucketWithoutSeparators | src/Filesystem.php:132 | Deleting the '/'s from the bucket gives the stem's first min(9, |stem|) characters. |
| LayoutProperties.RenderFilenameWithoutExtension | src/Filesystem.php:139-142 | A path whose extension is empty (no '.' in its base name, or a final '.') gets the name md5 + ".". |
| LayoutProperties.DirectoryIsTruthy | src/Filesystem.php:53-59 | array_filter never drops the media directory. |
| LayoutProperties.DestinationCases | src/Filesystem.php:53-61 | The destination key is given case by case on which of the sub-directory and the name are truthy. With a falsy target name, the hashed name is used. |
| LayoutProperties.OriginalDestination | src/Filesystem.php:53-61 | For a truthy file name (neither "" nor "0") without '/', a file copied under the media's own file name lands on dir + "/" + file_name. |
| LayoutProperties.ZeroTargetNames | src/Filesystem.php:57 | A target name "0" is replaced by the hashed name. A target whose basename is "0" is dropped, so the bytes land on the directory's own key. |
| LayoutProperties.AddThenCopyBackThroughFilesystem | src/Filesystem.php:36-81 | For a truthy file name (neither "" nor "0") without '/', calling Add under the media's own file name, then CopyFromMediaLibrary into a local file that does not exist, succeeds twice and leaves that file holding exactly the added bytes. |
| LayoutProperties.StoredPathInjective | src/Filesystem.php:74 | Two names give the same key in one media directory exactly when they are equal. |
| LayoutProperties.RenameMovesFile | src/Filesystem.php:100-108 | After renameFile, the old bytes are at dir/file_name; dir/oldName is gone when the names differ; no other key changes. |
| LayoutProperties.RemoveFilesRemovesMediaFiles | src/Filesystem.php:88-91 | removeFiles deletes every dir/name key. It also deletes every key copyToMediaLibrary wrote, unless array_filter left only the directory itself. |
| UrlGenerator.ConversionFileName | src/UrlGenerator/BaseUrlGenerator.php:74 | name + "." + result extension: it holds a '.'; ConversionFileNameParts splits it back into the conversion's name and the result extension. |
| UrlGenerator.ConversionFileNameParts | src/UrlGenerator/BaseUrlGenerator.php:74 | When the conversion's name and result extension hold no '/' and the extension no '.', the conversion file name's stem is the conversion's name and its extension the result extension. |
| UrlGenerator.BaseUrlGenerator.constructor | src/UrlGenerator/BaseUrlGenerator.php:29-32 | Neither media nor conversion is set. |
| UrlGenerator.BaseUrlGenerator.SetMedia | src/UrlGenerator/BaseUrlGenerator.php:39-44 | Sets only the media and returns the same object. |
| UrlGenerator.BaseUrlGenerator.SetConversion | src/UrlGenerator/BaseUrlGenerator.php:51-56 | Sets only the conversion and returns the same object. |
| UrlGenerator.BaseUrlGenerator.PathRelativeToRoot | src/UrlGenerator/BaseUrlGenerator.php:63-76 | The path always lies under the media directory. Without a conversion it is dir + "/" + file_name; with one it is dir + "/conversions/" + the conversion's file name. |
| UrlGenerator.OriginalPathAgreesWithStorage | src/UrlGenerator/BaseUrlGenerator.php:65-68 | For a truthy file name without '/', the path without a conversion is the key add writes under the media's own name. |
| UrlGenerator.FalsyFileNameBreaksAgreement | src/UrlGenerator/BaseUrlGenerator.php:65-68 | For the file names "" and "0" the path without a conversion differs from the key add writes under that name, because add falls back to the hashed name (src/Filesystem.php:57). |
| UrlGenerator.ConversionPathAgreesWithStorage | src/UrlGenerator/BaseUrlGenerator.php:70-75 | For a conversion file name without '/', the conversion path is the key copyToMediaLibrary writes into the "conversions" sub-directory under the conversion's file name. |
| UrlGenerator.ConversionPathOfName | src/UrlGenerator/BaseUrlGenerator.php:71-75 | For a file named stem.ext, the conversion path ends in conversions/ + name + "." + resultExtension(ext). |
| UrlGenerator.RemoveFilesRemovesUrlTarget | src/UrlGenerator/BaseUrlGenerator.php:63-76 | removeFiles deletes the file the path points to, original or conversion. |

## Left out

- The Laravel filesystem factory and the disk drivers are replaced by the
  abstract `Disk`. Disk configuration is not modelled: a disk name never
  written to stands for an empty disk.
- Backend exceptions are not modelled:
  - `move` with a missing source leaves the disk unchanged, and `RenameFile`
    still returns true;
  - `move` onto an existing target overwrites it;
  - a failing `readStream` is the `StoredFileMissing` outcome, after the
    target was created.
- `fopen` failing on the source file is the `SourceUnreadable` outcome:
  nothing is written and no derived files are requested. This matches the
  warning-to-exception conversion of the framework. Stream lifetimes and
  descriptors are not modelled.
- MediaFilesystem.Filesystem.CopyToMediaLibrary: the source is opened in
  'r+' mode, which needs write access as well as read access, so an existing
  read-only source fails too. File permissions are not modelled: being a key
  of the local files stands for "fopen in 'r+' mode succeeds".
- md5 is a parameter of the model that yields 32 lower-case hex digits; the
  hash algorithm itself is not modelled.
- `FileManipulator::createDerivedFiles` and the service container are not
  modelled; `Add` appends the media to a request log instead.
- `Conversion::getName` and `getResultExtension` are a name and an arbitrary
  function on extensions.
- `Media::extension` (the `extension` attribute read at
  src/UrlGenerator/BaseUrlGenerator.php:74) is not part of this model. It is
  taken to be pathinfo's extension of `file_name`.
- UrlGenerator.BaseUrlGenerator.PathRelativeToRoot: requires the media to be
  set; a call before `setMedia` fails in the source and is not modelled.
- The configuration held by both classes is never read by the modelled code
  and is left out.
- URL prefixing in the concrete URL generators is not part of this model.
- Concurrent access to one media directory is not modelled.
- Strings are sequences of characters, while PHP strings are byte strings
  and `str_split` and `strtolower` work on bytes. Each character of the model
  stands for one byte, so a name with non-ASCII characters is modelled by its
  byte sequence (UTF-8 "ä" is two characters). A model string holding
  characters above 255 has no PHP counterpart.
- `strtolower` is ASCII-only. `basename` is the text after the last '/'; its
  treatment of trailing slashes is not modelled.
- `str_split("")` is taken to give one empty chunk, as PHP 7 does, so an
  empty stem yields an empty bucket segment.
- The id is a natural number rendered in decimal.

=== FILE: filesystem.dfy ===
/** The media library's filesystem (src/Filesystem.php): where a media
    record's files live on its disk, how an ingested file is named, and the
    operations that copy files in and out, delete, rename and make the
    media directory. */
module MediaFilesystem {
  import opened Text
  import opened Storage

  predicate IsLowerHex(c: char) { '0' <= c <= '9' || 'a' <= c <= 'f' }

  /** What md5() returns: 32 lower-case hexadecimal digits. */
  type Digest = s: string | |s| == 32 && forall i :: 0 <= i < |s| ==> IsLowerHex(s[i])
    witness "00000000000000000000000000000000"

  /** The hash function the library names files with; its algorithm is not modelled. */
  type Hasher = string -> Digest

  /** The fields of a media record the filesystem reads. */
  datatype Media = Media(id: nat, disk: string, modelType: string, collectionName: string, fileName: string)

  /** Why an operation stopped: the local source file could not be opened,
      or the stored file to read does not exist on the disk. */
  datatype StorageError = SourceUnreadable(path: string) | StoredFileMissing(disk: string, path: string)

  datatype Outcome = Pass | Fail(error: StorageError)

  /** The owning model's class name without its namespace, lower-cased. */
  function ModelSegment(m: Media): string
  {
    Lower(AfterLast(m.modelType, '\\'))
  }

  function CollectionSegment(m: Media): string
  {
    Lower(m.collectionName)
  }

  /** The first three 3-character chunks of a file name's stem. */
  function BucketParts(stem: string): (ps: seq<string>)
    ensures |ps| == if |stem| <= 3 then 1 else if |stem| <= 6 then 2 else 3
    ensures Concat(ps) == stem[..Min(9, |stem|)]
    ensures forall i :: 0 <= i < |ps| - 1 ==> |ps[i]| == 3
    ensures 1 <= |ps[|ps| - 1]| <= 3 || stem == ""
  {
    var cs := Chunks3(stem);
    ChunksPrefix(stem, 3);
    ChunksShape(stem);
    cs[..Min(3, |cs|)]
  }

  /** The bucket directories a stem spreads files over, e.g. "abc/def/ghi". */
  function Bucket(stem: string): string
  {
    Join('/', BucketParts(stem))
  }

  /** The directory all files of a media record are stored in:
      model segment, collection, bucket and id, joined by '/' with no
      empty part dropped. */
  function MediaDirectoryName(m: Media): string
  {
    Join('/', [ModelSegment(m), CollectionSegment(m), Bucket(Stem(m.fileName)), Decimal(m.id)])
  }

  /** The name an ingested file gets when the caller gives none: the hash
      of the source path, a dot, and the source path's extension. */
  function RenderFilename(md5: Hasher, file: string): (r: string)
    ensures Stem(r) == md5(file) && Extension(r) == Extension(file)
    ensures |r| == 33 + |Extension(file)|
    ensures '/' !in r && Truthy(r)
  {
    var digest, ext := md5(file), Extension(file);
    var r := digest + "." + ext;
    assert IsLowerHex(digest[0]);
    assert '/' !in digest by {
      forall i | 0 <= i < |digest| ensures digest[i] != '/' { assert IsLowerHex(digest[i]); }
    }
    assert '.' !in digest by {
      forall i | 0 <= i < |digest| ensures digest[i] != '.' { assert IsLowerHex(digest[i]); }
    }
    assert LastIndexOf(r, '/') == -1;
    LastIndexOfSplice(digest, '.', ext);
    r
  }

  /** The file name segment copyToMediaLibrary writes under. */
  function TargetName(md5: Hasher, file: string, targetFileName: string): (name: string)
    ensures '/' !in name
  {
    if Truthy(targetFileName) then Basename(targetFileName) else RenderFilename(md5, file)
  }

  /** The key copyToMediaLibrary writes: directory, sub-directory and name,
      the falsy ones ("" and "0") left out, joined by '/'. */
  function Destination(md5: Hasher, file: string, m: Media, subDirectory: string, targetFileName: string): string
  {
    Join('/', KeepTruthy([MediaDirectoryName(m), subDirectory, TargetName(md5, file, targetFileName)]))
  }

  /** The key of a file called name in the media directory, as
      copyFromMediaLibrary and renameFile build it. */
  function StoredPath(m: Media, name: string): string
  {
    MediaDirectoryName(m) + "/" + name
  }

  class Filesystem {
    const md5: Hasher
    /** The disks by name; a name never written to stands for an empty disk. */
    var disks: map<string, Disk>
    /** The local files the library copies from and to. A key is a file that
        fopen can open for reading and writing (mode 'r+'); file permissions
        are not modelled. */
    var local: map<string, seq<byte>>
    /** The media records derived files were requested for, in order. */
    var derivedFilesRequested: seq<Media>

    constructor(md5: Hasher, disks: map<string, Disk>, local: map<string, seq<byte>>)
      ensures this.md5 == md5 && this.disks == disks && this.local == local
      ensures derivedFilesRequested == []
    {
      this.md5 := md5;
      this.disks := disks;
      this.local := local;
      derivedFilesRequested := [];
    }

    function DiskNamed(name: string): Disk
      reads this
    {
      if name in disks then disks[name] else Empty
    }

    /** Stores file for media, then asks for its derived files exactly once. */
    method Add(file: string, media: Media, targetFileName: string) returns (outcome: Outcome)
      modifies this`disks, this`derivedFilesRequested
      ensures outcome == if file in local then Pass else Fail(SourceUnreadable(file))
      ensures file in local ==>
                disks == old(disks)[media.disk := Put(old(DiskNamed(media.disk)), Destination(md5, file, media, "", targetFileName), local[file])]
      ensures file !in local ==> disks == old(disks)
      ensures derivedFilesRequested == old(derivedFilesRequested) + if outcome.Pass? then [media] else []
    {
      outcome := CopyToMediaLibrary(file, media, "", targetFileName);
      if outcome.Pass? {
        derivedFilesRequested := derivedFilesRequested + [media];
      }
    }

    /** Writes the bytes of local file `file` to exactly one key of the media's disk. */
    method CopyToMediaLibrary(file: string, media: Media, subDirectory: string, targetFileName: string)
      returns (outcome: Outcome)
      modifies this`disks
      ensures outcome == if file in local then Pass else Fail(SourceUnreadable(file))
      ensures file in local ==>
                disks == old(disks)[media.disk := Put(old(DiskNamed(media.disk)), Destination(md5, file, media, subDirectory, targetFileName), local[file])]
      ensures file !in local ==> disks == old(disks)
    {
      var destination := Destination(md5, file, media, subDirectory, targetFileName);
      if file !in local {
        return Fail(SourceUnreadable(file));
      }
      disks := disks[media.disk := Put(DiskNamed(media.disk), destination, local[file])];
      outcome := Pass;
    }

    /** Appends the stored original file of media to local file targetFile,
        which is created empty first when it does not exist. */
    method CopyFromMediaLibrary(media: Media, targetFile: string) returns (outcome: Outcome)
      modifies this`local
      ensures var source := StoredPath(media, media.fileName);
              var before := if targetFile in old(local) then old(local)[targetFile] else [];
              if source in DiskNamed(media.disk).files then
                outcome == Pass && local == old(local)[targetFile := before + DiskNamed(media.disk).files[source]]
              else
                outcome == Fail(StoredFileMissing(media.disk, source)) && local == old(local)[targetFile := before]
    {
      var sourceFile := MediaDirectoryName(media) + "/" + media.fileName;
      if targetFile !in local {
        local := local[targetFile := []];
      }
      var disk := DiskNamed(media.disk);
      if sourceFile !in disk.files {
        return Fail(StoredFileMissing(media.disk, sourceFile));
      }
      local := local[targetFile := local[targetFile] + disk.files[sourceFile]];
      outcome := Pass;
    }

    /** Deletes the media directory with everything under it. */
    method RemoveFiles(media: Media)
      modifies this`disks
      ensures disks == old(disks)[media.disk := DeleteDirectory(old(DiskNamed(media.disk)), MediaDirectoryName(media))]
    {
      disks := disks[media.disk := DeleteDirectory(DiskNamed(media.disk), MediaDirectoryName(media))];
    }

    /** Moves the file called oldName in the media directory to the media's current file name. */
    method RenameFile(media: Media, oldName: string) returns (renamed: bool)
      modifies this`disks
      ensures renamed
      ensures disks == old(disks)[media.disk :=
                Move(old(DiskNamed(media.disk)), StoredPath(media, oldName), StoredPath(media, media.fileName))]
    {
      var oldFile := MediaDirectoryName(media) + "/" + oldName;
      var newFile := MediaDirectoryName(media) + "/" + media.fileName;
      disks := disks[media.disk := Move(DiskNamed(media.disk), oldFile, newFile)];
      return true;
    }

    /** Makes the media directory on the media's disk and returns its name. */
    method GetMediaDirectory(media: Media) returns (directory: string)
      modifies this`disks
      ensures directory == MediaDirectoryName(media)
      ensures disks == old(disks)[media.disk := MakeDirectory(old(DiskNamed(media.disk)), directory)]
    {
      directory := MediaDirectoryName(media);
      disks := disks[media.disk := MakeDirectory(DiskNamed(media.disk), directory)];
    }
  }
}

=== FILE: layout_properties.dfy ===
/** Properties of the media path layout and of the keys the filesystem
    operations read, write, move and delete (src/Filesystem.php). */
module LayoutProperties {
  import opened Text
  import opened Storage
  import opened MediaFilesystem

  /** The model segment is the class name after the namespace, lower-cased:
      it holds no '\\' and no upper-case letter, and for a class name
      qualified by a namespace it is the lower-cased last part. */
  lemma ModelSegmentOfClassName(m: Media, namespace: string, className: string)
    ensures '\\' !in ModelSegment(m)
    ensures forall i :: 0 <= i < |ModelSegment(m)| ==> !IsUpper(ModelSegment(m)[i])
    ensures m.modelType == namespace + "\\" + className && '\\' !in className ==> ModelSegment(m) == Lower(className)
    ensures '\\' !in m.modelType ==> ModelSegment(m) == Lower(m.modelType)
  {
    LowerKeepsNonLetter(AfterLast(m.modelType, '\\'), '\\');
    if m.modelType == namespace + "\\" + className && '\\' !in className {
      AfterLastSplice(namespace, '\\', className);
      assert namespace + "\\" + className == namespace + ['\\'] + className;
    }
    if '\\' !in m.modelType {
      AfterLastIsLastPiece(m.modelType, '\\', m.modelType);
    }
  }

  /** implode joins the four parts with '/' and drops none of them. */
  lemma DirectoryKeepsEmptyParts(m: Media)
    ensures MediaDirectoryName(m)
            == ModelSegment(m) + "/" + CollectionSegment(m) + "/" + Bucket(Stem(m.fileName)) + "/" + Decimal(m.id)
    ensures m.collectionName == "" ==> ModelSegment(m) + "//" <= MediaDirectoryName(m)
    ensures Stem(m.fileName) == ""
            ==> MediaDirectoryName(m) == ModelSegment(m) + "/" + CollectionSegment(m) + "//" + Decimal(m.id)
  {
    var a, b, c, d := ModelSegment(m), CollectionSegment(m), Bucket(Stem(m.fileName)), Decimal(m.id);
    Join4('/', a, b, c, d);
    if m.collectionName == "" {
      DoubledSlash(a, b, c, d);
    }
    if Stem(m.fileName) == "" {
      EmptyBucket();
    }
  }

  lemma DoubledSlash(a: string, b: string, c: string, d: string)
    requires b == ""
    ensures a + "//" <= a + "/" + b + "/" + c + "/" + d
  {
    assert a + "/" + b + "/" + c + "/" + d == a + "//" + (c + "/" + d);
  }

  lemma EmptyBucket()
    ensures Bucket("") == ""
  {
    assert BucketParts("") == [""];
  }

  /** The directory's segments are, in order: the model's class name, the
      collection, one to three bucket chunks of the stem, and the id. */
  lemma MediaDirectorySegments(m: Media)
    requires '/' !in m.modelType && '/' !in m.collectionName
    ensures Split(MediaDirectoryName(m), '/')
            == [ModelSegment(m), CollectionSegment(m)] + BucketParts(Stem(m.fileName)) + [Decimal(m.id)]
  {
    var ps := BucketParts(Stem(m.fileName));
    LowerKeepsNonLetter(AfterLast(m.modelType, '\\'), '/');
    LowerKeepsNonLetter(m.collectionName, '/');
    DirectoryKeepsEmptyParts(m);
    ChunksAvoid(Stem(m.fileName), '/');
    SplitJoinNested('/', ModelSegment(m), CollectionSegment(m), ps, Decimal(m.id));
  }

  /** The id is the directory's final segment. */
  lemma DirectoryEndsWithId(m: Media)
    ensures AfterLast(MediaDirectoryName(m), '/') == Decimal(m.id)
  {
    DirectoryKeepsEmptyParts(m);
    var init := ModelSegment(m) + "/" + CollectionSegment(m) + "/" + Bucket(Stem(m.fileName));
    assert MediaDirectoryName(m) == init + ['/'] + Decimal(m.id);
    AfterLastSplice(init, '/', Decimal(m.id));
  }

  lemma ChunksStep(s: string)
    requires |s| > 3
    ensures Chunks3(s) == [s[..3]] + Chunks3(s[3..])
  {
  }

  /** The bucket by the stem's length: the whole stem up to 3 characters,
      two chunks up to 6, three chunks of which the last holds the 7th to
      at most the 9th character beyond that. */
  lemma BucketByLength(s: string)
    ensures |s| <= 3 ==> Bucket(s) == s
    ensures 3 < |s| <= 6 ==> Bucket(s) == s[..3] + "/" + s[3..]
    ensures 6 < |s| ==> Bucket(s) == s[..3] + "/" + s[3..6] + "/" + s[6..Min(9, |s|)]
  {
    if |s| <= 3 {
      assert Chunks3(s) == [s];
      assert BucketParts(s) == [s];
    } else {
      var t := s[3..];
      ChunksStep(s);
      if |s| <= 6 {
        assert Chunks3(t) == [t];
        var ps := [s[..3], t];
        assert BucketParts(s) == ps;
        assert ps[..1] == [s[..3]];
        assert Join('/', ps) == s[..3] + "/" + t;
      } else {
        ChunksStep(t);
        var u := t[3..];
        assert u == s[6..];
        var first := if |u| <= 3 then u else u[..3];
        assert Chunks3(u)[0] == first;
        assert first == s[6..Min(9, |s|)];
        var cs := Chunks3(s);
        assert cs == [s[..3]] + ([t[..3]] + Chunks3(u));
        assert t[..3] == s[3..6];
        assert cs[0] == s[..3] && cs[1] == s[3..6] && cs[2] == first;
        assert cs[..3] == [s[..3], s[3..6], first];
        var ps := [s[..3], s[3..6], first];
        assert BucketParts(s) == ps;
        assert ps[..2] == [s[..3], s[3..6]] && ps[..2][..1] == [s[..3]];
        assert Join('/', ps[..2]) == s[..3] + "/" + s[3..6];
      }
    }
  }

  /** "abcdefghi" is bucketed as "abc/def/ghi"; characters after the ninth
      are ignored; a stem of four characters gives two chunks. */
  lemma BucketExamples()
    ensures Bucket("abcdefghi") == "abc/def/ghi"
    ensures Bucket("abcdefghijkl") == "abc/def/ghi"
    ensures Bucket("abcd") == "abc/d"
    ensures Bucket("ab") == "ab"
  {
    BucketByLength("abcdefghi");
    BucketByLength("abcdefghijkl");
    BucketByLength("abcd");
    BucketByLength("ab");
  }

  /** Deleting the separators from the bucket gives back the stem's first
      min(9, |stem|) characters. */
  lemma BucketWithoutSeparators(stem: string)
    requires '/' !in stem
    ensures Without(Bucket(stem), '/') == stem[..Min(9, |stem|)]
  {
    var ps := BucketParts(stem);
    ChunksAvoid(stem, '/');
    assert forall i :: 0 <= i < |ps| ==> '/' !in ps[i];
    WithoutJoin('/', ps);
  }

  /** A source without an extension (no '.' in its base name, or a final
      '.') gets a stored name ending in '.'. */
  lemma RenderFilenameWithoutExtension(md5: Hasher, file: string)
    requires Extension(file) == ""
    ensures RenderFilename(md5, file) == md5(file) + "."
  {
    StemExtensionRebuild(file);
  }

  lemma DirectoryIsTruthy(m: Media)
    ensures Truthy(MediaDirectoryName(m))
  {
    DirectoryKeepsEmptyParts(m);
  }

  /** array_filter drops the falsy sub-directory and name; the directory
      itself is never dropped. When the caller gives no usable target name
      the hashed name is used, which is never dropped either. */
  lemma DestinationCases(md5: Hasher, file: string, m: Media, subDirectory: string, targetFileName: string)
    ensures var dir, name := MediaDirectoryName(m), TargetName(md5, file, targetFileName);
            Destination(md5, file, m, subDirectory, targetFileName)
            == if Truthy(subDirectory) then
                 (if Truthy(name) then dir + "/" + subDirectory + "/" + name else dir + "/" + subDirectory)
               else
                 (if Truthy(name) then dir + "/" + name else dir)
    ensures !Truthy(targetFileName)
            ==> Destination(md5, file, m, subDirectory, targetFileName)
                == if Truthy(subDirectory) then MediaDirectoryName(m) + "/" + subDirectory + "/" + RenderFilename(md5, file)
                   else MediaDirectoryName(m) + "/" + RenderFilename(md5, file)
  {
    var dir, name := MediaDirectoryName(m), TargetName(md5, file, targetFileName);
    DirectoryIsTruthy(m);
    JoinKeepTruthy3('/', dir, subDirectory, name);
  }

  /** Stored under its own file name, a media's file lands on the very key
      copyFromMediaLibrary reads and renameFile moves to. */
  lemma OriginalDestination(md5: Hasher, file: string, m: Media)
    requires Truthy(m.fileName) && '/' !in m.fileName
    ensures Destination(md5, file, m, "", m.fileName) == StoredPath(m, m.fileName)
  {
    DestinationCases(md5, file, m, "", m.fileName);
    assert LastIndexOf(m.fileName, '/') == -1;
  }

  /** The falsy "0" is a PHP corner: a target name "0" is ignored in favour
      of the hashed name, and a target path whose base name is "0" is
      dropped by array_filter, so the bytes land on the directory's own path. */
  lemma ZeroTargetNames(md5: Hasher, file: string, m: Media)
    ensures Destination(md5, file, m, "", "0") == StoredPath(m, RenderFilename(md5, file))
    ensures Destination(md5, file, m, "", "a/0") == MediaDirectoryName(m)
  {
    DestinationCases(md5, file, m, "", "0");
    DestinationCases(md5, file, m, "", "a/0");
    assert LastIndexOf("a/0", '/') == 1;
    assert Basename("a/0") == "0";
  }

  /** add under the media's own file name, then copyFromMediaLibrary into a
      local file that does not exist yet: both succeed and the new local
      file holds exactly the bytes that were added. */
  method AddThenCopyBackThroughFilesystem(fs: Filesystem, file: string, m: Media, target: string)
    returns (added: Outcome, copied: Outcome)
    requires Truthy(m.fileName) && '/' !in m.fileName
    requires file in fs.local && target !in fs.local
    modifies fs
    ensures added == Pass && copied == Pass
    ensures target in fs.local && fs.local[target] == old(fs.local[file])
  {
    added := fs.Add(file, m, m.fileName);
    OriginalDestination(fs.md5, file, m);
    copied := fs.CopyFromMediaLibrary(m, target);
  }

  /** Two names give the same key in one media directory only when they are equal. */
  lemma StoredPathInjective(m: Media, a: string, b: string)
    ensures StoredPath(m, a) == StoredPath(m, b) <==> a == b
  {
    var dir := MediaDirectoryName(m);
    if StoredPath(m, a) == StoredPath(m, b) {
      assert a == StoredPath(m, a)[|dir| + 1..];
    }
  }

  /** After renaming, the bytes formerly under the old name are under the
      media's file name, the old key is gone when the names differ, and no
      other key changes. */
  lemma RenameMovesFile(d: Disk, m: Media, oldName: string)
    requires StoredPath(m, oldName) in d.files
    ensures var after := Move(d, StoredPath(m, oldName), StoredPath(m, m.fileName));
            && StoredPath(m, m.fileName) in after.files
            && after.files[StoredPath(m, m.fileName)] == d.files[StoredPath(m, oldName)]
            && (oldName != m.fileName ==> StoredPath(m, oldName) !in after.files)
            && (forall k :: k != StoredPath(m, oldName) && k != StoredPath(m, m.fileName) ==>
                  (k in after.files <==> k in d.files) && (k in after.files ==> after.files[k] == d.files[k]))
  {
    StoredPathInjective(m, oldName, m.fileName);
  }

  /** Deleting the media directory removes every file stored in it by name,
      and every file copyToMediaLibrary wrote unless array_filter left only
      the directory itself. */
  lemma RemoveFilesRemovesMediaFiles(d: Disk, md5: Hasher, file: string, m: Media, subDirectory: string, targetFileName: string)
    ensures var after := DeleteDirectory(d, MediaDirectoryName(m));
            && (forall name :: StoredPath(m, name) !in after.files)
            && (Truthy(subDirectory) || Truthy(TargetName(md5, file, targetFileName))
                ==> Destination(md5, file, m, subDirectory, targetFileName) !in after.files)
  {
    var dir := MediaDirectoryName(m);
    forall name ensures IsUnder(StoredPath(m, name), dir) {
      UnderDirectory(dir, name);
    }
    if Truthy(subDirectory) || Truthy(TargetName(md5, file, targetFileName)) {
      DestinationUnderDirectory(md5, file, m, subDirectory, targetFileName);
    }
  }

  /** A copy destination lies inside the media directory unless
      array_filter left only the directory itself. */
  lemma DestinationUnderDirectory(md5: Hasher, file: string, m: Media, subDirectory: string, targetFileName: string)
    requires Truthy(subDirectory) || Truthy(TargetName(md5, file, targetFileName))
    ensures IsUnder(Destination(md5, file, m, subDirectory, targetFileName), MediaDirectoryName(m))
  {
    var dir, name := MediaDirectoryName(m), TargetName(md5, file, targetFileName);
    DestinationCases(md5, file, m, subDirectory, targetFileName);
    if !Truthy(subDirectory) {
      UnderDirectory(dir, name);
    } else if Truthy(name) {
      UnderSubDirectory(dir, subDirectory, name);
    } else {
      UnderDirectory(dir, subDirectory);
    }
  }
}

=== FILE: storage.dfy ===
/** The storage backend a disk name selects, reduced to its observable state:
    the stored files (path to bytes) and the directories made explicitly.
    The operations are those the media filesystem calls: put, readStream
    (a lookup), deleteDirectory, move and makeDirectory. */
module Storage {

  newtype byte = b: int | 0 <= b < 256

  datatype Disk = Disk(files: map<string, seq<byte>>, dirs: set<string>)

  /** A disk on which nothing has been stored yet. */
  const Empty: Disk := Disk(map[], {})

  /** path lies inside directory dir, at any depth. */
  predicate IsUnder(path: string, dir: string)
  {
    dir + "/" <= path
  }

  /** A name appended to a directory lies inside that directory. */
  lemma UnderDirectory(dir: string, name: string)
    ensures IsUnder(dir + "/" + name, dir)
  {
    assert (dir + "/" + name)[..|dir| + 1] == dir + "/";
  }

  /** A name in a sub-directory of a directory lies inside that directory. */
  lemma UnderSubDirectory(dir: string, sub: string, name: string)
    ensures IsUnder(dir + "/" + sub + "/" + name, dir)
  {
    assert (dir + "/" + sub + "/" + name)[..|dir| + 1] == dir + "/";
  }

  /** put(path, contents): path holds contents afterwards, no other file changes. */
  function Put(d: Disk, path: string, contents: seq<byte>): (r: Disk)
    ensures r.files.Keys == d.files.Keys + {path}
    ensures r.files[path] == contents
    ensures forall k :: k in d.files && k != path ==> r.files[k] == d.files[k]
    ensures r.dirs == d.dirs
  {
    Disk(d.files[path := contents], d.dirs)
  }

  /** deleteDirectory(dir): every file and directory inside dir is gone,
      dir itself too; whatever lies outside is kept as it was. */
  function DeleteDirectory(d: Disk, dir: string): (r: Disk)
    ensures forall k :: k in r.files <==> k in d.files && !IsUnder(k, dir)
    ensures forall k :: k in r.files ==> r.files[k] == d.files[k]
    ensures forall x :: x in r.dirs <==> x in d.dirs && x != dir && !IsUnder(x, dir)
  {
    Disk(map k | k in d.files && !IsUnder(k, dir) :: d.files[k],
         set x | x in d.dirs && x != dir && !IsUnder(x, dir))
  }

  /** move(from, to): the bytes at from end up at to and from is vacated;
      a missing source leaves the disk as it was. */
  function Move(d: Disk, from: string, to: string): (r: Disk)
    ensures from in d.files ==> to in r.files && r.files[to] == d.files[from]
    ensures from in d.files && from != to ==> from !in r.files
    ensures forall k :: k != from && k != to ==>
              (k in r.files <==> k in d.files) && (k in r.files ==> r.files[k] == d.files[k])
    ensures from !in d.files ==> r == d
    ensures r.dirs == d.dirs
  {
    if from in d.files then Disk((d.files - {from})[to := d.files[from]], d.dirs) else d
  }

  /** makeDirectory(dir): dir exists afterwards; no file changes. */
  function MakeDirectory(d: Disk, dir: string): (r: Disk)
    ensures r.files == d.files
    ensures r.dirs == d.dirs + {dir}
  {
    Disk(d.files, d.dirs + {dir})
  }

  /** Deleting a directory a second time changes nothing. */
  lemma DeleteDirectoryIdempotent(d: Disk, dir: string)
    ensures DeleteDirectory(DeleteDirectory(d, dir), dir) == DeleteDirectory(d, dir)
  {
    var once := DeleteDirectory(d, dir);
    var twice := DeleteDirectory(once, dir);
    assert twice.files == once.files;
    assert twice.dirs == once.dirs;
  }

  /** Making a directory a second time changes nothing. */
  lemma MakeDirectoryIdempotent(d: Disk, dir: string)
    ensures MakeDirectory(MakeDirectory(d, dir), dir) == MakeDirectory(d, dir)
  {
  }
}

=== FILE: text.dfy ===
/** String operations of PHP that the media path layout is built from:
    strtolower (ASCII), explode/array_pop, basename, pathinfo, str_split,
    implode, truthiness of a string, and the decimal rendering of an integer. */
module Text {

  function Min(a: int, b: int): int { if a <= b then a else b }

  /** PHP treats exactly "" and "0" as false among strings; array_filter drops them. */
  predicate Truthy(s: string) { s != "" && s != "0" }

  predicate IsUpper(c: char) { 'A' <= c <= 'Z' }

  /** strtolower on one character, ASCII only. */
  function LowerChar(c: char): (r: char)
    ensures !IsUpper(r)
    ensures !IsUpper(c) ==> r == c
    ensures IsUpper(c) ==> 'a' <= r <= 'z' && r as int - 'a' as int == c as int - 'A' as int
  {
    if IsUpper(c) then (c as int + 32) as char else c
  }

  /** strtolower, ASCII only. */
  function Lower(s: string): (r: string)
    ensures |r| == |s|
    ensures forall i :: 0 <= i < |s| ==> r[i] == LowerChar(s[i])
  {
    if s == [] then [] else [LowerChar(s[0])] + Lower(s[1..])
  }

  /** Lower-casing never creates nor removes a character that is not a letter. */
  lemma LowerKeepsNonLetter(s: string, c: char)
    requires !IsUpper(c) && !('a' <= c <= 'z')
    ensures c in Lower(s) <==> c in s
  {
    if c in s {
      var i :| 0 <= i < |s| && s[i] == c;
      assert Lower(s)[i] == c;
    }
    if c in Lower(s) {
      var i :| 0 <= i < |Lower(s)| && Lower(s)[i] == c;
      assert s[i] == c;
    }
  }

  /** Index of the last occurrence of c in s, or -1 when there is none. */
  function LastIndexOf(s: string, c: char): (r: int)
    ensures -1 <= r < |s|
    ensures r >= 0 ==> s[r] == c
    ensures forall j :: r < j < |s| ==> s[j] != c
  {
    if s == [] then -1
    else if s[|s| - 1] == c then |s| - 1
    else LastIndexOf(s[..|s| - 1], c)
  }

  /** When the text after a separator is free of it, that separator is the last one. */
  lemma LastIndexOfSplice(a: string, c: char, b: string)
    requires c !in b
    ensures LastIndexOf(a + [c] + b, c) == |a|
  {
    var s := a + [c] + b;
    var r := LastIndexOf(s, c);
    assert s[|a|] == c;
  }

  /** The last c of x + b is the last c of b, when b has one. */
  lemma LastIndexOfShift(x: string, b: string, c: char)
    requires LastIndexOf(b, c) >= 0
    ensures LastIndexOf(x + b, c) == |x| + LastIndexOf(b, c)
  {
    var i, s := LastIndexOf(b, c), x + b;
    var j := LastIndexOf(s, c);
    assert s[|x| + i] == c;
  }

  /** The text after the last c, or all of s when c does not occur
      (array_pop(explode(c, s)), and basename when c is '/'). */
  function AfterLast(s: string, c: char): (r: string)
    ensures c !in r
    ensures |r| <= |s| && r == s[|s| - |r|..]
  {
    s[LastIndexOf(s, c) + 1..]
  }

  /** r is a c-free suffix of s that is either all of s or preceded by a c. */
  predicate IsLastPiece(s: string, c: char, r: string)
  {
    c !in r && |r| <= |s| && r == s[|s| - |r|..] && (|r| == |s| || s[|s| - |r| - 1] == c)
  }

  /** AfterLast is exactly the last piece: it is one, and no other string is. */
  lemma AfterLastIsLastPiece(s: string, c: char, r: string)
    ensures AfterLast(s, c) == r <==> IsLastPiece(s, c, r)
  {
    var a := AfterLast(s, c);
    AfterLastCut(s, c);
    if IsLastPiece(s, c, r) && |r| != |a| {
      LastPiecesNested(s, c, r, a);
      LastPiecesNested(s, c, a, r);
    }
  }

  /** What AfterLast cuts off ends with c, unless nothing is cut off. */
  lemma AfterLastCut(s: string, c: char)
    ensures IsLastPiece(s, c, AfterLast(s, c))
  {
  }

  /** A last piece cannot be strictly shorter than another: the c before it
      would lie inside the longer one. */
  lemma LastPiecesNested(s: string, c: char, r: string, a: string)
    requires IsLastPiece(s, c, r) && IsLastPiece(s, c, a)
    ensures |a| <= |r|
  {
  }

  lemma AfterLastSplice(a: string, c: char, b: string)
    requires c !in b
    ensures AfterLast(a + [c] + b, c) == b
  {
    LastIndexOfSplice(a, c, b);
  }

  /** basename: the text after the last '/'. */
  function Basename(path: string): (r: string)
    ensures '/' !in r
    ensures |r| <= |path| && r == path[|path| - |r|..]
  {
    AfterLast(path, '/')
  }

  /** basename is exactly the text after the last '/': the '/'-free suffix
      that is the whole path or follows a '/'. */
  lemma BasenameIsLastPiece(path: string, r: string)
    ensures Basename(path) == r <==> IsLastPiece(path, '/', r)
  {
    AfterLastIsLastPiece(path, '/', r);
  }

  /** A name without '/' is its own base name. */
  lemma BasenameOfName(name: string)
    requires '/' !in name
    ensures Basename(name) == name
  {
    assert LastIndexOf(name, '/') == -1;
  }

  /** pathinfo(path, PATHINFO_FILENAME): the base name up to its last '.',
      or the whole base name when it has no '.'. */
  function Stem(path: string): (r: string)
    ensures '/' !in r
  {
    var name := Basename(path);
    var i := LastIndexOf(name, '.');
    if i < 0 then name else name[..i]
  }

  /** pathinfo(path, PATHINFO_EXTENSION): the base name after its last '.',
      or "" when it has no '.'. */
  function Extension(path: string): (r: string)
    ensures '/' !in r && '.' !in r
  {
    var name := Basename(path);
    var i := LastIndexOf(name, '.');
    if i < 0 then "" else name[i + 1..]
  }

  /** Stem and extension put back together give the base name again. */
  lemma StemExtensionRebuild(path: string)
    ensures var name := Basename(path);
            name == if '.' in name then Stem(path) + "." + Extension(path) else Stem(path)
    ensures '.' !in Basename(path) ==> Extension(path) == ""
  {
    var name := Basename(path);
    var i := LastIndexOf(name, '.');
    if i >= 0 {
      assert name == name[..i] + "." + name[i + 1..];
    }
  }

  /** A name built from a stem, a dot and a dot-free extension splits back
      into that stem and extension. */
  lemma StemExtensionOfName(stem: string, ext: string)
    requires '/' !in stem && '/' !in ext && '.' !in ext
    ensures Stem(stem + "." + ext) == stem
    ensures Extension(stem + "." + ext) == ext
  {
    BasenameOfName(stem + "." + ext);
    LastIndexOfSplice(stem, '.', ext);
    SpliceSlices(stem, '.', ext);
  }

  lemma SpliceSlices(a: string, c: char, b: string)
    ensures (a + [c] + b)[..|a|] == a
    ensures (a + [c] + b)[|a| + 1..] == b
  {
  }

  /** Concatenation of all parts (implode with an empty glue). */
  function Concat(parts: seq<string>): string
  {
    if parts == [] then "" else Concat(parts[..|parts| - 1]) + parts[|parts| - 1]
  }

  lemma {:induction false} ConcatPrepend(a: string, parts: seq<string>)
    ensures Concat([a] + parts) == a + Concat(parts)
    decreases |parts|
  {
    if parts != [] {
      var init := parts[..|parts| - 1];
      assert ([a] + parts)[..|parts|] == [a] + init;
      ConcatPrepend(a, init);
    } else {
      assert [a] + parts == [a];
      assert Concat([a]) == Concat([]) + a;
    }
  }

  /** implode(sep, parts); the empty array gives "". */
  function Join(sep: char, parts: seq<string>): string
  {
    if |parts| == 0 then ""
    else if |parts| == 1 then parts[0]
    else Join(sep, parts[..|parts| - 1]) + [sep] + parts[|parts| - 1]
  }

  /** explode(sep, s): the pieces of s between the occurrences of sep. */
  function Split(s: string, sep: char): (r: seq<string>)
    ensures |r| >= 1
    decreases |s|
  {
    var i := LastIndexOf(s, sep);
    if i < 0 then [s] else Split(s[..i], sep) + [s[i + 1..]]
  }

  /** array_pop(explode(c, s)) is AfterLast(s, c). */
  lemma AfterLastIsLastSplitPiece(s: string, c: char)
    ensures Split(s, c)[|Split(s, c)| - 1] == AfterLast(s, c)
  {
  }

  /** No piece of a split holds the separator. */
  lemma {:induction false} SplitPiecesAvoidSep(s: string, sep: char)
    ensures forall k :: 0 <= k < |Split(s, sep)| ==> sep !in Split(s, sep)[k]
    decreases |s|
  {
    var i := LastIndexOf(s, sep);
    if i >= 0 {
      SplitPiecesAvoidSep(s[..i], sep);
      var pieces := Split(s, sep);
      assert pieces == Split(s[..i], sep) + [s[i + 1..]];
      forall k | 0 <= k < |pieces| ensures sep !in pieces[k] {
        if k < |pieces| - 1 {
          assert pieces[k] == Split(s[..i], sep)[k];
        }
      }
    }
  }

  /** Splitting a joined list gives the list back when no part holds the separator. */
  lemma {:induction false} SplitJoin(sep: char, parts: seq<string>)
    requires |parts| >= 1
    requires forall i :: 0 <= i < |parts| ==> sep !in parts[i]
    ensures Split(Join(sep, parts), sep) == parts
    decreases |parts|
  {
    if |parts| > 1 {
      var init, last := parts[..|parts| - 1], parts[|parts| - 1];
      var a := Join(sep, init);
      var s := a + [sep] + last;
      assert Join(sep, parts) == s;
      LastIndexOfSplice(a, sep, last);
      assert s[..|a|] == a;
      assert s[|a| + 1..] == last;
      SplitJoin(sep, init);
      assert parts == init + [last];
    }
  }

  /** Joining the pieces of a split gives the string back. */
  lemma {:induction false} JoinSplit(s: string, sep: char)
    ensures Join(sep, Split(s, sep)) == s
    decreases |s|
  {
    var i := LastIndexOf(s, sep);
    if i >= 0 {
      var pieces := Split(s[..i], sep);
      JoinSplit(s[..i], sep);
      var all := pieces + [s[i + 1..]];
      assert all[..|all| - 1] == pieces;
      assert Join(sep, all) == s[..i] + [sep] + s[i + 1..];
      assert s == s[..i] + [sep] + s[i + 1..];
    }
  }

  /** array_filter on a list of strings: the truthy ones, in order. */
  function KeepTruthy(parts: seq<string>): (r: seq<string>)
    ensures |r| <= |parts|
    ensures forall i :: 0 <= i < |r| ==> Truthy(r[i])
  {
    if parts == [] then []
    else (if Truthy(parts[0]) then [parts[0]] else []) + KeepTruthy(parts[1..])
  }

  /** array_filter works part by part: filtering a concatenation filters
      each side and keeps their order. */
  lemma {:induction false} KeepTruthyAppend(a: seq<string>, b: seq<string>)
    ensures KeepTruthy(a + b) == KeepTruthy(a) + KeepTruthy(b)
    decreases |a|
  {
    if a != [] {
      assert (a + b)[1..] == a[1..] + b;
      KeepTruthyAppend(a[1..], b);
    } else {
      assert a + b == b;
    }
  }

  /** array_filter keeps exactly the truthy parts. */
  lemma {:induction false} KeepTruthyMembers(parts: seq<string>, x: string)
    ensures x in KeepTruthy(parts) <==> x in parts && Truthy(x)
    decreases |parts|
  {
    if parts != [] {
      KeepTruthyMembers(parts[1..], x);
      assert parts == [parts[0]] + parts[1..];
    }
  }

  /** array_filter on a single part keeps it exactly when it is truthy. */
  lemma KeepTruthySingle(x: string)
    ensures KeepTruthy([x]) == if Truthy(x) then [x] else []
  {
    assert [x][1..] == [];
  }

  /** The pieces of a separator-joined string, when the string before the
      last separator splits on its own. */
  lemma {:induction false} SplitAppend(a: string, sep: char, b: string)
    ensures Split(a + [sep] + b, sep) == Split(a, sep) + Split(b, sep)
    decreases |b|
  {
    var i := LastIndexOf(b, sep);
    if i < 0 {
      SplitAtSplice(a, sep, b);
    } else {
      SplitAtLastOfTail(a + [sep], b, sep);
      SplitAppend(a, sep, b[..i]);
      AppendLast(Split(a, sep), Split(b[..i], sep), b[i + 1..]);
    }
  }

  /** With no separator in b, a + sep + b is cut right after a. */
  lemma SplitAtSplice(a: string, sep: char, b: string)
    requires LastIndexOf(b, sep) < 0
    ensures Split(a + [sep] + b, sep) == Split(a, sep) + [b]
  {
    var s := a + [sep] + b;
    LastIndexOfSplice(a, sep, b);
    assert s[..|a|] == a;
    assert s[|a| + 1..] == b;
  }

  lemma AppendLast(p: seq<string>, q: seq<string>, last: string)
    ensures (p + q) + [last] == p + (q + [last])
  {
  }

  /** Splitting x + b cuts at the last separator of b, when b has one. */
  lemma SplitAtLastOfTail(x: string, b: string, sep: char)
    requires LastIndexOf(b, sep) >= 0
    ensures var i := LastIndexOf(b, sep);
            && Split(x + b, sep) == Split(x + b[..i], sep) + [b[i + 1..]]
            && Split(b, sep) == Split(b[..i], sep) + [b[i + 1..]]
  {
    var i := LastIndexOf(b, sep);
    LastIndexOfShift(x, b, sep);
    SlicesOfConcat(x, b, i);
    SplitCut(x + b, sep);
    SplitCut(b, sep);
  }

  lemma SplitCut(s: string, sep: char)
    requires LastIndexOf(s, sep) >= 0
    ensures var i := LastIndexOf(s, sep);
            Split(s, sep) == Split(s[..i], sep) + [s[i + 1..]]
  {
  }

  lemma SlicesOfConcat(x: string, b: string, i: nat)
    requires i < |b|
    ensures (x + b)[..|x| + i] == x + b[..i]
    ensures (x + b)[|x| + i + 1..] == b[i + 1..]
  {
  }

  /** implode of three parts. */
  lemma Join3(sep: char, a: string, b: string, c: string)
    ensures Join(sep, [a, b, c]) == a + [sep] + b + [sep] + c
  {
    assert [a, b][..1] == [a];
    assert Join(sep, [a, b]) == a + [sep] + b;
    assert [a, b, c][..2] == [a, b];
  }

  /** implode of four parts. */
  lemma Join4(sep: char, a: string, b: string, c: string, d: string)
    ensures Join(sep, [a, b, c, d]) == a + [sep] + b + [sep] + c + [sep] + d
  {
    assert [a, b][..1] == [a];
    assert Join(sep, [a, b]) == a + [sep] + b;
    assert [a, b, c][..2] == [a, b];
    assert Join(sep, [a, b, c]) == a + [sep] + b + [sep] + c;
    assert [a, b, c, d][..3] == [a, b, c];
  }

  /** Splitting four joined fields, the third itself a join, gives the
      fields back with the third's parts in its place. */
  lemma SplitJoinNested(sep: char, a: string, b: string, ps: seq<string>, d: string)
    requires sep !in a && sep !in b && sep !in d
    requires |ps| >= 1 && forall i :: 0 <= i < |ps| ==> sep !in ps[i]
    ensures Split(a + [sep] + b + [sep] + Join(sep, ps) + [sep] + d, sep) == [a, b] + ps + [d]
  {
    var c := Join(sep, ps);
    var ab := a + [sep] + b;
    var abc := ab + [sep] + c;
    SplitJoin(sep, ps);
    SplitAlone(a, sep);
    SplitAlone(b, sep);
    SplitAlone(d, sep);
    SplitAppend(a, sep, b);
    assert Split(ab, sep) == [a, b];
    SplitAppend(ab, sep, c);
    assert Split(abc, sep) == [a, b] + ps;
    SplitAppend(abc, sep, d);
  }

  lemma SplitAlone(s: string, sep: char)
    requires sep !in s
    ensures Split(s, sep) == [s]
  {
  }

  /** implode(sep, array_filter([a, b, c])) when a is truthy. */
  lemma JoinKeepTruthy3(sep: char, a: string, b: string, c: string)
    requires Truthy(a)
    ensures Join(sep, KeepTruthy([a, b, c]))
            == if Truthy(b) then (if Truthy(c) then a + [sep] + b + [sep] + c else a + [sep] + b)
               else (if Truthy(c) then a + [sep] + c else a)
  {
    KeepTruthyThree(a, b, c);
    KeepTruthySingle(b);
    KeepTruthySingle(c);
    if Truthy(b) && Truthy(c) {
      assert [a] + [b] + [c] == [a, b, c];
      Join3(sep, a, b, c);
    } else if Truthy(b) {
      assert [a] + [b] + [] == [a, b];
      Join2(sep, a, b);
    } else if Truthy(c) {
      assert [a] + [] + [c] == [a, c];
      Join2(sep, a, c);
    } else {
      assert [a] + [] + [] == [a];
    }
  }

  lemma KeepTruthyThree(a: string, b: string, c: string)
    requires Truthy(a)
    ensures KeepTruthy([a, b, c]) == [a] + KeepTruthy([b]) + KeepTruthy([c])
  {
    assert [a, b, c] == [a] + ([b] + [c]);
    KeepTruthyAppend([b], [c]);
    KeepTruthyAppend([a], [b] + [c]);
    KeepTruthySingle(a);
  }

  /** implode of two parts. */
  lemma Join2(sep: char, a: string, b: string)
    ensures Join(sep, [a, b]) == a + [sep] + b
  {
    assert [a, b][..1] == [a];
  }

  /** The characters of s other than c, in order. */
  function Without(s: string, c: char): (r: string)
    ensures c !in r
    ensures |r| <= |s|
  {
    if s == [] then "" else (if s[0] == c then "" else [s[0]]) + Without(s[1..], c)
  }

  lemma {:induction false} WithoutAppend(a: string, b: string, c: char)
    ensures Without(a + b, c) == Without(a, c) + Without(b, c)
    decreases |a|
  {
    if a != [] {
      assert (a + b)[1..] == a[1..] + b;
      WithoutAppend(a[1..], b, c);
    } else {
      assert a + b == b;
    }
  }

  lemma {:induction false} WithoutAbsent(s: string, c: char)
    requires c !in s
    ensures Without(s, c) == s
    decreases |s|
  {
    if s != [] {
      WithoutAbsent(s[1..], c);
    }
  }

  /** Deleting the separators of a join leaves the concatenation of the parts. */
  lemma {:induction false} WithoutJoin(sep: char, parts: seq<string>)
    requires forall i :: 0 <= i < |parts| ==> sep !in parts[i]
    ensures Without(Join(sep, parts), sep) == Concat(parts)
    decreases |parts|
  {
    if |parts| == 1 {
      WithoutAbsent(parts[0], sep);
      assert Concat(parts) == Concat([]) + parts[0];
    } else if |parts| > 1 {
      var init, last := parts[..|parts| - 1], parts[|parts| - 1];
      WithoutJoin(sep, init);
      WithoutAppend(Join(sep, init) + [sep], last, sep);
      WithoutAppend(Join(sep, init), [sep], sep);
      WithoutAbsent(last, sep);
    }
  }

  /** str_split(s, 3): consecutive 3-character chunks, the last possibly
      shorter; the empty string gives one empty chunk. */
  function Chunks3(s: string): (r: seq<string>)
    ensures |r| >= 1
    decreases |s|
  {
    if |s| <= 3 then [s] else [s[..3]] + Chunks3(s[3..])
  }

  /** There are ceil(|s| / 3) chunks (one for ""), all of length 3 but the
      last, which is 1 to 3 long. */
  lemma {:induction false} ChunksShape(s: string)
    ensures var r := Chunks3(s);
            && (3 * (|r| - 1) < |s| <= 3 * |r| || (s == "" && |r| == 1))
            && (forall i :: 0 <= i < |r| - 1 ==> |r[i]| == 3)
            && (1 <= |r[|r| - 1]| <= 3 || s == "")
    decreases |s|
  {
    if |s| > 3 {
      var rest := Chunks3(s[3..]);
      ChunksShape(s[3..]);
      assert Chunks3(s) == [s[..3]] + rest;
    }
  }

  /** A character absent from s is absent from each of its chunks. */
  lemma {:induction false} ChunksAvoid(s: string, c: char)
    requires c !in s
    ensures forall i :: 0 <= i < |Chunks3(s)| ==> c !in Chunks3(s)[i]
    decreases |s|
  {
    if |s| > 3 {
      ChunksAvoid(s[3..], c);
      assert c !in s[..3];
      assert Chunks3(s) == [s[..3]] + Chunks3(s[3..]);
    }
  }

  /** The first k chunks hold exactly the first 3k characters. */
  lemma {:induction false} ChunksPrefix(s: string, k: nat)
    ensures Concat(Chunks3(s)[..Min(k, |Chunks3(s)|)]) == s[..Min(3 * k, |s|)]
    decreases |s|
  {
    var cs := Chunks3(s);
    if k == 0 {
      assert cs[..0] == [];
    } else if |s| <= 3 {
      assert cs[..1] == [s];
      assert Concat([s]) == Concat([]) + s;
    } else {
      var rest := Chunks3(s[3..]);
      var m := Min(k - 1, |rest|);
      var t := Min(3 * (k - 1), |s| - 3);
      ChunksPrefix(s[3..], k - 1);
      TakeAfterHead(s[..3], rest, m);
      ConcatPrepend(s[..3], rest[..m]);
      PrefixSplit(s, 3, t);
    }
  }

  lemma TakeAfterHead<T>(a: T, rest: seq<T>, m: nat)
    requires m <= |rest|
    ensures ([a] + rest)[..m + 1] == [a] + rest[..m]
  {
  }

  lemma PrefixSplit(s: string, i: nat, t: nat)
    requires i + t <= |s|
    ensures s[..i] + s[i..][..t] == s[..i + t]
  {
  }

  predicate IsDigit(c: char) { '0' <= c <= '9' }

  function DigitChar(d: nat): (c: char)
    requires d < 10
    ensures IsDigit(c) && c as int - '0' as int == d
  {
    ('0' as int + d) as char
  }

  /** The decimal rendering PHP gives an integer id when it joins it into a string. */
  function Decimal(n: nat): (r: string)
    ensures |r| >= 1
    ensures forall i :: 0 <= i < |r| ==> IsDigit(r[i])
  {
    if n < 10 then [DigitChar(n)] else Decimal(n / 10) + [DigitChar(n % 10)]
  }

  /** The number a string of decimal digits denotes. */
  function DecimalValue(s: string): nat
    requires forall i :: 0 <= i < |s| ==> IsDigit(s[i])
  {
    if s == [] then 0 else DecimalValue(s[..|s| - 1]) * 10 + DigitValue(s[|s| - 1])
  }

  function DigitValue(c: char): nat
    requires IsDigit(c)
  {
    c as int - '0' as int
  }

  /** Rendering an id in decimal loses nothing: two ids never share a rendering. */
  lemma {:induction false} DecimalRoundTrip(n: nat)
    ensures DecimalValue(Decimal(n)) == n
  {
    var r := Decimal(n);
    if n >= 10 {
      DecimalRoundTrip(n / 10);
      assert r[..|r| - 1] == Decimal(n / 10);
    }
  }

  /** The rendering is canonical: it starts with '0' only for the id 0, so
      no id is written with a leading zero. */
  lemma {:induction false} DecimalNoLeadingZero(n: nat)
    ensures Decimal(n)[0] == '0' <==> n == 0
  {
    if n >= 10 {
      DecimalNoLeadingZero(n / 10);
      assert Decimal(n)[0] == Decimal(n / 10)[0];
    }
  }

  lemma DecimalHasNoSlash(n: nat)
    ensures '/' !in Decimal(n)
  {
  }
}

=== FILE: url_generator.dfy ===
/** The part of the URL generators shared by all of them
    (src/UrlGenerator/BaseUrlGenerator.php): the media and the conversion a
    URL is asked for, and the path of the requested file relative to the
    root of the media disk. */
module UrlGenerator {
  import opened Text
  import opened Storage
  import opened MediaFilesystem
  import LayoutProperties

  datatype Option<T> = None | Some(value: T)

  /** A conversion as the URL generator sees it: its name, and the rule
      that gives the extension of its output for the original's extension. */
  datatype Conversion = Conversion(name: string, resultExtension: string -> string)

  /** The file name a conversion of a file with extension ext is stored
      under: the conversion's name, a '.', and its result extension. */
  function ConversionFileName(c: Conversion, ext: string): (name: string)
    ensures '.' in name
  {
    var name := c.name + "." + c.resultExtension(ext);
    assert name[|c.name|] == '.';
    name
  }

  /** pathinfo splits a conversion's file name back into the conversion's
      name and its result extension, whenever those hold no '/' and the
      extension no '.'. */
  lemma ConversionFileNameParts(c: Conversion, ext: string)
    requires '/' !in c.name && '/' !in c.resultExtension(ext) && '.' !in c.resultExtension(ext)
    ensures Stem(ConversionFileName(c, ext)) == c.name
    ensures Extension(ConversionFileName(c, ext)) == c.resultExtension(ext)
  {
    StemExtensionOfName(c.name, c.resultExtension(ext));
  }

  class BaseUrlGenerator {
    var media: Option<Media>
    var conversion: Option<Conversion>

    constructor()
      ensures media == None && conversion == None
    {
      media := None;
      conversion := None;
    }

    method SetMedia(m: Media) returns (self: BaseUrlGenerator)
      modifies this`media
      ensures media == Some(m)
      ensures self == this
    {
      media := Some(m);
      return this;
    }

    method SetConversion(c: Conversion) returns (self: BaseUrlGenerator)
      modifies this`conversion
      ensures conversion == Some(c)
      ensures self == this
    {
      conversion := Some(c);
      return this;
    }

    /** The original's key on the disk when no conversion is set, otherwise
        the conversion's file in the "conversions" directory inside the
        media directory; either way a path inside the media directory. */
    function PathRelativeToRoot(): (p: string)
      reads this
      requires media.Some?
      ensures IsUnder(p, MediaDirectoryName(media.value))
      ensures conversion.None? ==> p == StoredPath(media.value, media.value.fileName)
      ensures conversion.Some? ==>
                p == MediaDirectoryName(media.value) + "/" + "conversions" + "/" + ConversionFileName(conversion.value, Extension(media.value.fileName))
    {
      var m := media.value;
      var path := MediaDirectoryName(m);
      if conversion.None? then
        UnderDirectory(path, m.fileName);
        path + "/" + m.fileName
      else
        var name := ConversionFileName(conversion.value, Extension(m.fileName));
        Join3('/', path, "conversions", name);
        UnderSubDirectory(path, "conversions", name);
        Join('/', [path, "conversions", name])
    }
  }

  /** Without a conversion, the URL path is the key the original was stored
      under by add (when the media's own name is given as the target), the
      key copyFromMediaLibrary reads and the key renameFile moves to. */
  lemma OriginalPathAgreesWithStorage(g: BaseUrlGenerator, md5: Hasher, file: string)
    requires g.media.Some? && g.conversion.None?
    requires Truthy(g.media.value.fileName) && '/' !in g.media.value.fileName
    ensures g.PathRelativeToRoot() == Destination(md5, file, g.media.value, "", g.media.value.fileName)
  {
    LayoutProperties.OriginalDestination(md5, file, g.media.value);
  }

  /** The agreement fails for the falsy file names "" and "0": add ignores
      such a target name and stores under the hashed name, while the URL
      path still ends in the file name. */
  lemma FalsyFileNameBreaksAgreement(g: BaseUrlGenerator, md5: Hasher, file: string)
    requires g.media.Some? && g.conversion.None?
    requires !Truthy(g.media.value.fileName)
    ensures g.PathRelativeToRoot() != Destination(md5, file, g.media.value, "", g.media.value.fileName)
  {
    var m := g.media.value;
    LayoutProperties.DestinationCases(md5, file, m, "", m.fileName);
    assert |StoredPath(m, m.fileName)| < |StoredPath(m, RenderFilename(md5, file))|;
  }

  /** With a conversion, the URL path is the key copyToMediaLibrary writes
      when it copies the conversion's file into the "conversions"
      sub-directory under the conversion's file name. */
  lemma ConversionPathAgreesWithStorage(g: BaseUrlGenerator, md5: Hasher, file: string)
    requires g.media.Some? && g.conversion.Some?
    requires '/' !in ConversionFileName(g.conversion.value, Extension(g.media.value.fileName))
    ensures var m, c := g.media.value, g.conversion.value;
            g.PathRelativeToRoot()
            == Destination(md5, file, m, "conversions", ConversionFileName(c, Extension(m.fileName)))
  {
    var m, c := g.media.value, g.conversion.value;
    var name := ConversionFileName(c, Extension(m.fileName));
    assert name[|c.name|] == '.';
    BasenameOfName(name);
    LayoutProperties.DestinationCases(md5, file, m, "conversions", name);
  }

  /** For a media file named stem.ext, a conversion's file is found at
      conversions/<conversion name>.<its result extension for ext> inside
      the media directory. */
  lemma ConversionPathOfName(g: BaseUrlGenerator, stem: string, ext: string)
    requires '/' !in stem && '/' !in ext && '.' !in ext
    requires g.media.Some? && g.media.value.fileName == stem + "." + ext
    requires g.conversion.Some?
    ensures g.PathRelativeToRoot()
            == MediaDirectoryName(g.media.value) + "/" + "conversions" + "/" + ConversionFileName(g.conversion.value, ext)
  {
    StemExtensionOfName(stem, ext);
  }

  /** Removing the media's files removes the file the URL points to,
      whether it is the original or a conversion. */
  lemma RemoveFilesRemovesUrlTarget(g: BaseUrlGenerator, d: Disk)
    requires g.media.Some?
    ensures g.PathRelativeToRoot() !in DeleteDirectory(d, MediaDirectoryName(g.media.value)).files
  {
  }
}
